=== FILE: README.md ===
# Monitoring arithmetic of the Vert.x deployment study, in Dafny

The repository demonstrates how Vert.x verticles are deployed as several
instances and on worker pools. The only logic of its own is two monitors:

- `MessageQueueMonitor` (multi-instance module) keeps four global message
  counters (sent, received, pending, failed) and two per-address tables
  (sends per address, pending per address). Three lifecycle calls update
  them. A periodic report derives the backlog and prints two threshold
  warnings, and `getQueueStats` returns a snapshot.
- `VertxMetricsMonitor` (multi-worker-pool module) walks the JVM's threads on
  each tick. It counts those whose name contains `vertx-eventloop` and adds
  up their positive CPU times. It derives used memory and an integer
  percentage of the maximum, and prints two fixed consumer estimates.

The model is functional. The queue monitor is an immutable `Monitor` record.
`MessageSent`, `MessageReceived` and `MessageFailed` are pure transitions.
`Replay` folds a history of events over a fresh monitor. Lemmas by induction
over histories connect the counters to an independent reference: the number
of matching events in the history. The metrics sample takes a sequence of
`(thread info, cpu time)` records and three memory figures as inputs. Its
loop is a method whose contract ties it to recursive reference definitions.

Files:

- `tally.dfy`: `Map.getOrDefault(k, 0)`, `Map.merge(k, d, Long::sum)`, and the sum of a table's values.
- `queue_monitor.dfy`: state, transitions, event histories, report, snapshot.
- `queue_history.dfy`: ledger invariant, monotonicity, counters as event counts.
- `queue_scenarios.dfy`: warning boundaries, a burst, and the deployment's histories.
- `java_arith.dfy`: Java's truncating `long` division and `/ 1024 / 1024`.
- `metrics_monitor.dfy`: one `logVertxMetrics` cycle.
- `metrics_properties.dfy`: properties of the thread scan and of the name filter `contains`. The memory-percentage bound, `UsedPercentInRange`, sits with the memory arithmetic in `metrics_monitor.dfy`.

What the model shows about the code:

- Over every event history from construction, pending equals sent minus
  received minus failed. The pending table adds up to pending, and the send
  table adds up to sent. Sent, received and failed never decrease.
- Nothing bounds pending from below. A receive or failure for an address
  that was never sent to leaves a pending entry of -1 and no send entry.
  The report walks the send table only, so such an address is never printed.
- In the multi-instance module, `Application.java` owns one monitor and
  records the sends. Each `DeploymentVerticle` instance builds its own monitor
  and records receives and, when its handler is interrupted, failures, but
  never a send. Those monitors show negative pending and backlog and list no
  address (`ConsumerMonitor`, `ReceiveOnlyMonitor`,
  `ReceiveOnlyMonitorListsNothing`).
- An interrupted handler records a receive and then a failure for the same
  message on its own monitor. That lowers its pending by two, so one
  interrupted message on a fresh consumer monitor leaves pending at -2
  (`VerticleInterruptedMessage`, `VerticleInterruptedFromFresh`). Even a
  monitor that also saw the send would end one below where it started,
  while the ledger invariant still holds (`InterruptedHandlerDoubleCounts`).
- The event-loop filter is the exact substring `vertx-eventloop`, the spelling the module's own description uses. A thread named with a dot, `vert.x-eventloop-thread-0`, is not counted (`DottedEventLoopNameIgnored`). Which spelling the framework gives its threads is outside these sources.
- The backlog is sent minus received. It ignores failures, so on a
  consistent ledger it equals pending plus failed.

Behaviour one might expect of such a monitor but that the code does not have, so the model does not either:

- Report lines come out in `ConcurrentHashMap` order, not sorted by address.
  The model keeps them as an unordered map.
- Addresses are used verbatim. Empty addresses are not mapped to `"unknown"`.
- Counters are not kept non-negative: pending can go below zero.
- The processing rate is not guarded against a zero interval. It is left
  out (see below).

## Model

| member | source | states |
|---|---|---|
| Tally.Merge | multi-instance/src/main/java/com/gig/vertx/multiinstance/monitor/MessageQueueMonitor.java:35-36 | `merge(k, d, Long::sum)` adds the key if absent, changes only that key's value, by exactly `d`, starting from 0 when absent |
| Tally.SumMerge | multi-instance/src/main/java/com/gig/vertx/multiinstance/monitor/MessageQueueMonitor.java:32-49 | every merge changes the sum of a per-address table by exactly the merged amount, whether or not the key existed |
| QueueHistory.FreshReportIsQuiet | multi-instance/src/main/java/com/gig/vertx/multiinstance/monitor/MessageQueueMonitor.java:15-21 | a monitor with the constructor's zero counters and empty send table reports all four counters and the backlog as 0, no address line and no warning |
| QueueHistory.FreshStatsAreEmpty | multi-instance/src/main/java/com/gig/vertx/multiinstance/monitor/MessageQueueMonitor.java:15-21 | a newly constructed monitor's snapshot holds zeros and two empty tables |
| QueueHistory.EmptySendTableNoLines | multi-instance/src/main/java/com/gig/vertx/multiinstance/monitor/MessageQueueMonitor.java:74-77 | the report walks the send table only: with it empty, no address is listed whatever the pending table holds |
| QueueMonitor.MessageSent | multi-instance/src/main/java/com/gig/vertx/multiinstance/monitor/MessageQueueMonitor.java:32-37 | sent and pending rise by one globally and for the address, an absent address gets an entry at 1, every other address and received/failed are untouched |
| QueueMonitor.MessageReceived | multi-instance/src/main/java/com/gig/vertx/multiinstance/monitor/MessageQueueMonitor.java:39-43 | received rises by one, pending falls by one globally and for the address with no lower bound, the send table and sent/failed are untouched |
| QueueMonitor.MessageFailed | multi-instance/src/main/java/com/gig/vertx/multiinstance/monitor/MessageQueueMonitor.java:45-49 | failed rises by one, pending falls by one globally and for the address with no lower bound, the send table and sent/received are untouched |
| QueueMonitor.Step | multi-instance/src/main/java/com/gig/vertx/multiinstance/monitor/MessageQueueMonitor.java:32-49 | no lifecycle event lowers sent, received or failed |
| QueueMonitor.Warnings | multi-instance/src/main/java/com/gig/vertx/multiinstance/monitor/MessageQueueMonitor.java:80-85 | the backlog warning is present iff backlog > 100, the pending warning iff pending > 50, independently, and nothing else is warned |
| QueueMonitor.LogQueueStatus | multi-instance/src/main/java/com/gig/vertx/multiinstance/monitor/MessageQueueMonitor.java:57-88 | the report shows the monitor's four counters and a backlog of the monitor's sent minus received, it has a line exactly for the addresses in the send table, each with its send count and its pending entry (0 when missing), and its warnings are those of that backlog and the monitor's pending |
| QueueMonitor.GetQueueStats | multi-instance/src/main/java/com/gig/vertx/multiinstance/monitor/MessageQueueMonitor.java:95-105 | the snapshot carries the current counters, a backlog of sent minus received, and exact copies of both tables |
| QueueHistory.StepPreservesConsistent | multi-instance/src/main/java/com/gig/vertx/multiinstance/monitor/MessageQueueMonitor.java:32-49 | each event keeps pending = sent - received - failed, the pending table summing to pending and the send table summing to sent |
| QueueHistory.ApplyPreservesConsistent | multi-instance/src/main/java/com/gig/vertx/multiinstance/monitor/MessageQueueMonitor.java:32-49 | any sequence of events keeps a consistent ledger consistent |
| QueueHistory.ReplayConsistent | multi-instance/src/main/java/com/gig/vertx/multiinstance/monitor/MessageQueueMonitor.java:15-49 | starting from zero counters and empty tables, every history ends in a consistent ledger |
| QueueHistory.ApplyMonotone | multi-instance/src/main/java/com/gig/vertx/multiinstance/monitor/MessageQueueMonitor.java:32-49 | sent, received and failed never decrease over any sequence of events |
| QueueHistory.ReplayTotals | multi-instance/src/main/java/com/gig/vertx/multiinstance/monitor/MessageQueueMonitor.java:32-49 | after a history, sent, received and failed are the numbers of such events and pending is their difference |
| QueueHistory.ReplaySendTable | multi-instance/src/main/java/com/gig/vertx/multiinstance/monitor/MessageQueueMonitor.java:32-37 | after a history, an address's send entry is the number of sends to it, and it has an entry iff something was sent to it |
| QueueHistory.ReplayPendingTable | multi-instance/src/main/java/com/gig/vertx/multiinstance/monitor/MessageQueueMonitor.java:32-49 | after a history, an address's pending entry is its sends minus receives minus failures |
| QueueHistory.ReplayPendingKeys | multi-instance/src/main/java/com/gig/vertx/multiinstance/monitor/MessageQueueMonitor.java:36-48 | after a history, the pending table has an entry for an address iff some event named it |
| QueueHistory.BacklogIsPendingPlusFailed | multi-instance/src/main/java/com/gig/vertx/multiinstance/monitor/MessageQueueMonitor.java:62 | on a consistent ledger the backlog in report and snapshot is pending plus failed: failures are not subtracted |
| QueueHistory.StatusAgreesWithStats | multi-instance/src/main/java/com/gig/vertx/multiinstance/monitor/MessageQueueMonitor.java:57-105 | report and snapshot read the same counters, derive the same backlog, and the report's addresses are the snapshot's send-table keys |
| QueueHistory.UnsentAddressUnreported | multi-instance/src/main/java/com/gig/vertx/multiinstance/monitor/MessageQueueMonitor.java:74-77 | an address never sent to has no report line, and its pending entry is minus its receives and failures |
| QueueHistory.SendKeysHavePending | multi-instance/src/main/java/com/gig/vertx/multiinstance/monitor/MessageQueueMonitor.java:74-77 | in every state a history reaches, an address with a send entry also has a pending entry, so the report's `getOrDefault(address, 0L)` never uses its default and each line shows the real pending entry |
| QueueScenarios.BacklogWarningBoundary | multi-instance/src/main/java/com/gig/vertx/multiinstance/monitor/MessageQueueMonitor.java:80-82 | after 100 sends the warnings are exactly the pending one; after 101 they are exactly the backlog and the pending one |
| QueueScenarios.PendingWarningBoundary | multi-instance/src/main/java/com/gig/vertx/multiinstance/monitor/MessageQueueMonitor.java:83-85 | after 50 sends there is no warning at all; after 51 exactly the pending one |
| QueueScenarios.BurstRaisesBothWarnings | multi-instance/src/main/java/com/gig/vertx/multiinstance/monitor/MessageQueueMonitor.java:57-88 | 120 sends and 10 receives on one address give backlog and pending 110, both warnings at once, and one line with 120 sent and 110 pending |
| QueueScenarios.ReceiveOnlyMonitor | multi-instance/src/main/java/com/gig/vertx/multiinstance/client/DeploymentVerticle.java:30-37 | a consumer monitor over a history of receives only (the monitor of any instance other than 2, whose handler never calls `messageFailed`, DeploymentVerticle.java:39) ends with pending, the address's pending entry and backlog all at minus the receive count |
| QueueScenarios.ReceiveOnlyMonitorListsNothing | multi-instance/src/main/java/com/gig/vertx/multiinstance/client/DeploymentVerticle.java:30-37 | that receive-only monitor's report lists no address at all |
| QueueScenarios.NoSendsCounted | multi-instance/src/main/java/com/gig/vertx/multiinstance/monitor/MessageQueueMonitor.java:39-49 | receives and failures never add to sent or to the send table, so a history without sends leaves both at zero |
| QueueScenarios.ConsumerMonitor | multi-instance/src/main/java/com/gig/vertx/multiinstance/client/DeploymentVerticle.java:30-46 | any history of a consumer's own monitor (receives and failures, no sends) ends with pending at minus their number, backlog at minus the receives, and an empty send table, so (`EmptySendTableNoLines`) no report line |
| QueueScenarios.VerticleInterruptedMessage | multi-instance/src/main/java/com/gig/vertx/multiinstance/client/DeploymentVerticle.java:37-46 | an interrupted handler's receive and failure of one message lower its monitor's pending by two, globally and for the address, and its backlog by one, and leave the send table alone |
| QueueScenarios.VerticleInterruptedFromFresh | multi-instance/src/main/java/com/gig/vertx/multiinstance/client/DeploymentVerticle.java:30-46 | on a consumer's fresh monitor one interrupted message leaves pending at -2, globally and for the address, and nothing to report |
| QueueScenarios.InterruptedHandlerDoubleCounts | multi-instance/src/main/java/com/gig/vertx/multiinstance/monitor/MessageQueueMonitor.java:32-49 | on a monitor shared by sender and consumer (not the deployment's wiring), after any history, a send, receive and failure of one message leave pending one lower than before the send, globally and for the address, with the ledger still consistent |
| QueueScenarios.InterruptedHandlerGoesNegative | multi-instance/src/main/java/com/gig/vertx/multiinstance/monitor/MessageQueueMonitor.java:32-49 | on a fresh shared monitor that single interrupted message drives pending to -1, globally and for its address |
| JavaArith.Quot | multi-worker-pool/src/main/java/com/gig/vertx/multiworkerpool/monitor/VertxMetricsMonitor.java:61-65 | Java division agrees with Euclidean division on non-negative operands, has the magnitude of the magnitudes' quotient, and its sign follows the operands' signs |
| JavaArith.QuotNegate | multi-worker-pool/src/main/java/com/gig/vertx/multiworkerpool/monitor/VertxMetricsMonitor.java:61-65 | Java division is symmetric under negating the dividend (rounds toward zero) |
| JavaArith.QuotBounds | multi-worker-pool/src/main/java/com/gig/vertx/multiworkerpool/monitor/VertxMetricsMonitor.java:61-65 | the quotient's magnitude times the divisor's fits in the dividend's, and one more does not |
| JavaArith.MegabytesIsOneDivision | multi-worker-pool/src/main/java/com/gig/vertx/multiworkerpool/monitor/VertxMetricsMonitor.java:63-64 | `bytes / 1024 / 1024` with truncation equals one truncating division by 1048576 |
| JavaArith.Megabytes | multi-worker-pool/src/main/java/com/gig/vertx/multiworkerpool/monitor/VertxMetricsMonitor.java:63-64 | the megabyte figure is the number of whole 2^20-byte units, rounded toward zero: for a non-negative byte count, `mb * 2^20 <= bytes < (mb + 1) * 2^20` |
| MetricsMonitor.CpuContribution | multi-worker-pool/src/main/java/com/gig/vertx/multiworkerpool/monitor/VertxMetricsMonitor.java:43-48 | a thread adds a positive amount to the CPU total iff it is an event loop with positive CPU time, otherwise nothing |
| MetricsMonitor.EventLoopCount | multi-worker-pool/src/main/java/com/gig/vertx/multiworkerpool/monitor/VertxMetricsMonitor.java:37-44 | the event-loop count is between 0 and the number of listed thread ids |
| MetricsMonitor.EventLoopCpu | multi-worker-pool/src/main/java/com/gig/vertx/multiworkerpool/monitor/VertxMetricsMonitor.java:39-50 | the event-loop CPU total is never negative and is zero when no thread matches |
| MetricsMonitor.ScanThreads | multi-worker-pool/src/main/java/com/gig/vertx/multiworkerpool/monitor/VertxMetricsMonitor.java:37-50 | the loop stops at the first thread whose info is null iff there is one, and otherwise yields exactly the count and the positive-CPU total of the threads whose name contains `vertx-eventloop` |
| MetricsMonitor.MemoryFigures | multi-worker-pool/src/main/java/com/gig/vertx/multiworkerpool/monitor/VertxMetricsMonitor.java:53-65 | the arithmetic fails iff max memory is 0; used = total - free and max are shown as bytes / 2^20 rounded toward zero; the percentage is `used*100/max` and lies in 0..100 whenever free <= total <= max |
| MetricsMonitor.UsedPercentInRange | multi-worker-pool/src/main/java/com/gig/vertx/multiworkerpool/monitor/VertxMetricsMonitor.java:65 | for used memory between 0 and the maximum, `(used * 100) / max` lies in 0..100 |
| MetricsMonitor.LogVertxMetrics | multi-worker-pool/src/main/java/com/gig/vertx/multiworkerpool/monitor/VertxMetricsMonitor.java:33-96 | a cycle fails at the first null thread info iff one is listed, fails on division iff all infos are present and max memory is 0, and otherwise reports the matching-thread count, their CPU total in whole ms, the memory figures, one local and zero remote consumers, and never the no-consumer warning |
| MetricsProperties.EventLoopConcat | multi-worker-pool/src/main/java/com/gig/vertx/multiworkerpool/monitor/VertxMetricsMonitor.java:41-50 | count and CPU total add up over any split of the thread list |
| MetricsProperties.EventLoopOrderIrrelevant | multi-worker-pool/src/main/java/com/gig/vertx/multiworkerpool/monitor/VertxMetricsMonitor.java:37-50 | any two listings of the same threads (equal as multisets) give the same count and CPU total: the order of the thread ids does not matter |
| MetricsProperties.NonEventLoopThreadIgnored | multi-worker-pool/src/main/java/com/gig/vertx/multiworkerpool/monitor/VertxMetricsMonitor.java:43 | a thread whose name does not match, listed anywhere, changes neither count nor CPU total |
| MetricsProperties.NonPositiveCpuTimeIgnored | multi-worker-pool/src/main/java/com/gig/vertx/multiworkerpool/monitor/VertxMetricsMonitor.java:44-48 | a matching thread with CPU time 0 or -1 raises the count by one and leaves the CPU total unchanged |
| MetricsProperties.EventLoopCpuCoversEachThread | multi-worker-pool/src/main/java/com/gig/vertx/multiworkerpool/monitor/VertxMetricsMonitor.java:41-50 | the CPU total is at least the positive time of each matching thread |
| MetricsProperties.DescribedEventLoopNameMatches | multi-worker-pool/src/main/java/com/gig/vertx/multiworkerpool/monitor/VertxMetricsMonitor.java:119-123 | a thread named as the module's own description says (`vertx-eventloop-thread-0`) is counted |
| MetricsProperties.DottedEventLoopNameIgnored | multi-worker-pool/src/main/java/com/gig/vertx/multiworkerpool/monitor/VertxMetricsMonitor.java:43 | the filter is an exact substring test: a thread named `vert.x-eventloop-thread-0` is not counted |
| MetricsProperties.ContainsInfix | multi-worker-pool/src/main/java/com/gig/vertx/multiworkerpool/monitor/VertxMetricsMonitor.java:43 | `contains` finds the pattern wherever it occurs in a name |
| MetricsProperties.ContainsSplits | multi-worker-pool/src/main/java/com/gig/vertx/multiworkerpool/monitor/VertxMetricsMonitor.java:43 | conversely, a name that contains the pattern splits as prefix, pattern, suffix |
| MetricsProperties.ContainsNeedsRoom | multi-worker-pool/src/main/java/com/gig/vertx/multiworkerpool/monitor/VertxMetricsMonitor.java:43 | a name shorter than the pattern never contains it, and the empty pattern is in every name |
| MetricsMonitor.LocalConsumerCount | multi-worker-pool/src/main/java/com/gig/vertx/multiworkerpool/monitor/VertxMetricsMonitor.java:87-91 | the local-consumer estimate is positive, so the warning at line 82 is dead code |
| MetricsMonitor.RemoteConsumerCount | multi-worker-pool/src/main/java/com/gig/vertx/multiworkerpool/monitor/VertxMetricsMonitor.java:93-96 | no remote consumer is ever reported |

## Left out

- Java `long` overflow: every counter and sum is an unbounded integer. `totalSent` and friends would wrap after 2^63 events, and `usedMemory * 100` or the CPU sum could overflow. Neither is reachable in practice.
- Null addresses: `messageSent(null)` increments `totalSent` and `totalPending` and then throws `NullPointerException` from `ConcurrentHashMap.merge`; `messageReceived(null)` and `messageFailed(null)` likewise move their counters before throwing. That leaves the global counters ahead of the tables, so the ledger (`Consistent`) would break. Addresses are Dafny strings, which cannot be null, and every caller passes the literal `"demo.address"`.
- Concurrency: `AtomicLong` and `ConcurrentHashMap` make each update atomic. The model applies events one at a time, which is what each call means on its own. Interleaved reads by the report are not modelled.
- Processing rate (`calculateProcessingRate`): `double` division by the interval in seconds. It is floating point, and it is not guarded against a zero interval.
- Scheduling: `vertx.setPeriodic` in both constructors only calls the report; the model calls it directly.
- Logging: the logger calls and their text. `logDetailedMetrics`, `logThreadPoolInfo` and `logEventLoopInfo` print fixed strings and one processor count read from the host.
- Host reads: `ManagementFactory.getThreadMXBean()` and `Runtime.getRuntime()` become the inputs of `LogVertxMetrics`. A null thread info, for a thread that ended after its id was listed, is kept as the `NullThreadInfo` error. A CPU time of -1, which the bean returns when CPU time measurement is disabled or the thread has ended, is an ordinary input value. On a JVM that does not support thread CPU time, `getThreadCpuTime` throws `UnsupportedOperationException`; the model assumes support.
- `lastEventLoopTime` and `lastEventLoopCount` in `VertxMetricsMonitor` are declared and never used.
- The multi-worker-pool `MessageQueueMonitor` with `taskStarted`, `taskCompleted` and `taskFailed` is not part of this model.
- Wiring: `Application.java` (both modules), `DeploymentVerticle.java`, `WorkerVerticle.java` and both `DeploymentConfigFactory.java` files are framework setup. In the deployment no monitor sees both sides: `Application.java` sends through its own monitor, and each `DeploymentVerticle` reports receives and failures to its own. `ReceiveOnlyMonitor`, `ReceiveOnlyMonitorListsNothing`, `ConsumerMonitor`, `VerticleInterruptedMessage` and `VerticleInterruptedFromFresh` reproduce the consumer monitors' histories. `BurstRaisesBothWarnings`, `InterruptedHandlerDoubleCounts` and `InterruptedHandlerGoesNegative` describe a monitor that sees both sends and receives, which the deployment does not build.

=== FILE: java_arith.dfy ===
/** Java `long` division as the metrics report uses it. Java's `/` truncates
    toward zero, while Dafny's `/` on `int` is Euclidean; the two differ on
    negative dividends. Operands are unbounded, so overflow is not modelled. */
module JavaArith {

  function Abs(x: int): nat
  {
    if x < 0 then -x else x
  }

  /** Dafny's division of a non-negative by a positive number is non-negative. */
  lemma DivNonNegative(n: int, d: int)
    requires n >= 0 && d > 0
    ensures n / d >= 0
  {
  }

  /** Java's `a / b` for `b != 0`: the quotient of the magnitudes, negated when
      exactly one operand is negative. (`b == 0` throws; callers decide.) */
  function Quot(a: int, b: int): (q: int)
    requires b != 0
    ensures a >= 0 && b > 0 ==> q == a / b
    ensures Abs(q) == Abs(a) / Abs(b)
    ensures q > 0 ==> (a > 0) == (b > 0)
    ensures q < 0 ==> (a > 0) != (b > 0)
  {
    var n: int, d: int := Abs(a), Abs(b);
    DivNonNegative(n, d);
    if (a < 0) == (b < 0) then n / d else -(n / d)
  }

  /** Truncation is symmetric in the sign of the dividend, which Euclidean
      division is not: Java gives -7 / 2 == -3 where Dafny gives -4. */
  lemma {:induction false} QuotNegate(a: int, b: int)
    requires b != 0
    ensures Quot(-a, b) == -Quot(a, b)
  {
    assert Abs(-a) == Abs(a);
    if a == 0 {
      assert 0 / Abs(b) == 0;
    }
  }

  /** `x == d * q + r` with `0 <= r < d` determines `x / d`. */
  lemma {:induction false} DivUnique(x: int, d: int, q: int, r: int)
    requires d > 0 && x == d * q + r && 0 <= r < d
    ensures x / d == q
  {
    var k := x / d;
    assert d * k + x % d == d * q + r;
    assert d * (q - k) == x % d - r by {
      assert d * (q - k) == d * q - d * k;
    }
    ProductLeavesOpenInterval(d, q - k);
  }

  /** A non-zero multiple of `d > 0` lies outside the open interval (-d, d). */
  lemma ProductLeavesOpenInterval(d: int, t: int)
    requires d > 0
    ensures t >= 1 ==> d * t >= d
    ensures t <= -1 ==> d * t <= -d
  {
    if t >= 1 {
      assert d * t == d + d * (t - 1);
    } else if t <= -1 {
      assert d * t == -d + d * (t + 1);
    }
  }

  /** The magnitude of the quotient is the largest multiple of the divisor's
      magnitude that fits in the dividend's: truncation rounds toward zero. */
  lemma {:induction false} QuotBounds(a: int, b: int)
    requires b != 0
    ensures Abs(Quot(a, b)) * Abs(b) <= Abs(a) < (Abs(Quot(a, b)) + 1) * Abs(b)
  {
    var n: int, d: int := Abs(a), Abs(b);
    var k: int := n / d;
    assert n == d * k + n % d;
    assert 0 <= n % d < d;
    assert (k + 1) * d == k * d + d;
  }

  /** Dividing by 1024 twice with truncation is one truncating division by
      1024 * 1024: nothing is lost to the intermediate rounding. */
  lemma {:induction false} MegabytesIsOneDivision(bytes: int)
    ensures Quot(Quot(bytes, 1024), 1024) == Quot(bytes, 1048576)
  {
    var x: int := Abs(bytes);
    var q1: int, r1: int := x / 1024, x % 1024;
    var q2: int, r2: int := q1 / 1024, q1 % 1024;
    assert x == 1024 * q1 + r1;
    assert q1 == 1024 * q2 + r2;
    assert x == 1048576 * q2 + (1024 * r2 + r1);
    DivUnique(x, 1048576, q2, 1024 * r2 + r1);
    if bytes < 0 {
      QuotNegate(-bytes, 1024);
      QuotNegate(Quot(-bytes, 1024), 1024);
      QuotNegate(-bytes, 1048576);
    }
  }

  /** Bytes to megabytes as the report writes it, `bytes / 1024 / 1024`: the
      number of whole mebibytes, rounded toward zero. */
  function Megabytes(bytes: int): (mb: int)
    ensures mb == Quot(bytes, 1048576)
    ensures bytes >= 0 ==> mb * 1048576 <= bytes < (mb + 1) * 1048576
  {
    MegabytesIsOneDivision(bytes);
    QuotBounds(bytes, 1048576);
    Quot(Quot(bytes, 1024), 1024)
  }
}

=== FILE: metrics_monitor.dfy ===
/** The runtime-metrics monitor of the multi-worker-pool module: one periodic
    sample counts the event-loop threads by name, sums their CPU time, and
    derives memory figures. The thread bean and the runtime are inputs: a
    sequence of per-thread samples in the order `getAllThreadIds` lists them,
    and the three memory figures. */
module MetricsMonitor {
  import opened JavaArith

  /** The substring that marks a thread as an event-loop thread. */
  const EventLoopPattern: string := "vertx-eventloop"
  /** CPU time is reported in milliseconds; the bean reports nanoseconds. */
  const NanosPerMilli: int := 1_000_000

  /** Whether `pat` occurs in `s` starting at index `i`. */
  predicate OccursAt(s: string, pat: string, i: int)
  {
    0 <= i && i + |pat| <= |s| && s[i..i + |pat|] == pat
  }

  /** Java's `s.contains(pat)`. */
  predicate Contains(s: string, pat: string)
  {
    exists i | 0 <= i <= |s| - |pat| :: OccursAt(s, pat, i)
  }

  /** What `getThreadInfo(id)` gives: nothing for a thread that has ended
      since its id was listed, otherwise its name. */
  datatype ThreadInfo = Gone | Info(name: string)

  /** One listed thread id: its info and `getThreadCpuTime(id)`, which is -1
      when CPU time measurement is disabled or the thread is no longer alive. */
  datatype ThreadSample = ThreadSample(info: ThreadInfo, cpuTime: int)

  /** `totalMemory()`, `freeMemory()` and `maxMemory()`, in bytes. */
  datatype MemorySample = MemorySample(total: int, free: int, max: int)

  /** A thread counts as an event loop when its name contains the pattern. */
  predicate IsEventLoop(t: ThreadSample)
  {
    t.info.Info? && Contains(t.info.name, EventLoopPattern)
  }

  /** What one thread adds to the CPU total: its time if it is an event loop
      with a positive time, nothing otherwise. */
  function CpuContribution(t: ThreadSample): (c: int)
    ensures c >= 0
    ensures c > 0 <==> IsEventLoop(t) && t.cpuTime > 0
  {
    if IsEventLoop(t) && t.cpuTime > 0 then t.cpuTime else 0
  }

  /** The number of event-loop threads among `ts`; never more than listed. */
  function EventLoopCount(ts: seq<ThreadSample>): (n: int)
    ensures 0 <= n <= |ts|
  {
    if |ts| == 0 then 0
    else EventLoopCount(ts[..|ts| - 1]) + (if IsEventLoop(ts[|ts| - 1]) then 1 else 0)
  }

  /** The event-loop CPU time among `ts`, in nanoseconds; never negative, and
      zero when no thread is an event loop. */
  function EventLoopCpu(ts: seq<ThreadSample>): (c: int)
    ensures c >= 0
    ensures EventLoopCount(ts) == 0 ==> c == 0
  {
    if |ts| == 0 then 0
    else EventLoopCpu(ts[..|ts| - 1]) + CpuContribution(ts[|ts| - 1])
  }

  /** Whether every listed thread still had its info when it was inspected. */
  predicate AllInfoPresent(ts: seq<ThreadSample>)
  {
    forall i :: 0 <= i < |ts| ==> ts[i].info.Info?
  }

  /** Whether the thread at `i` is the first listed one whose info is null. */
  predicate FirstNullInfo(ts: seq<ThreadSample>, i: int)
  {
    0 <= i < |ts| && ts[i].info.Gone? && AllInfoPresent(ts[..i])
  }

  /** `getLocalConsumerCount`: a fixed estimate of one local consumer, never
      zero, so the warning about no local consumers cannot fire. */
  function LocalConsumerCount(): (n: int)
    ensures n > 0
  {
    1
  }

  /** `getRemoteConsumerCount`: no remote consumer is ever reported, since
      the deployment is not clustered. */
  function RemoteConsumerCount(): (n: int)
    ensures n == 0
  {
    0
  }

  /** How walking the listed threads ends: with the event-loop count and CPU
      total in nanoseconds, or at the first thread whose info was null, where
      reading the name threw. */
  datatype ScanOutcome = Scanned(count: int, cpuNanos: int) | NullInfoAt(index: nat)

  /** The thread loop of `logVertxMetrics`: visit the thread ids in order,
      count each whose name contains the pattern, and add its CPU time when
      positive. */
  method ScanThreads(threads: seq<ThreadSample>) returns (scan: ScanOutcome)
    ensures scan.NullInfoAt? <==> !AllInfoPresent(threads)
    ensures scan.NullInfoAt? ==> FirstNullInfo(threads, scan.index)
    ensures scan.Scanned? ==> scan.count == EventLoopCount(threads) && scan.cpuNanos == EventLoopCpu(threads)
  {
    var count := 0;
    var cpu := 0;
    var i := 0;
    while i < |threads| && threads[i].info.Info?
      invariant 0 <= i <= |threads|
      invariant AllInfoPresent(threads[..i])
      invariant count == EventLoopCount(threads[..i])
      invariant cpu == EventLoopCpu(threads[..i])
    {
      assert threads[..i + 1][..i] == threads[..i];
      if Contains(threads[i].info.name, EventLoopPattern) {
        count := count + 1;
        if threads[i].cpuTime > 0 {
          cpu := cpu + threads[i].cpuTime;
        }
      }
      i := i + 1;
    }
    if i < |threads| {
      scan := NullInfoAt(i);
    } else {
      assert threads[..i] == threads;
      scan := Scanned(count, cpu);
    }
  }

  /** The memory line of the report. */
  datatype MemoryUsage = MemoryUsage(usedMb: int, maxMb: int, usedPercent: int)

  /** The memory arithmetic either yields the figures or throws on a zero
      maximum. */
  datatype MemoryOutcome = Usage(usage: MemoryUsage) | ZeroMax

  /** Used memory is total minus free; the report shows used and maximum in
      whole megabytes and `used * 100 / max` as an integer percentage, all with
      Java's truncating division. */
  function MemoryFigures(mem: MemorySample): (r: MemoryOutcome)
    ensures r.ZeroMax? <==> mem.max == 0
    ensures r.Usage? ==> r.usage.usedMb == Quot(mem.total - mem.free, 1048576)
    ensures r.Usage? ==> r.usage.maxMb == Quot(mem.max, 1048576)
    ensures r.Usage? && mem.max > 0 && mem.total >= mem.free ==>
      r.usage.usedPercent == (mem.total - mem.free) * 100 / mem.max
    ensures r.Usage? && 0 <= mem.free <= mem.total <= mem.max ==> 0 <= r.usage.usedPercent <= 100
  {
    if mem.max == 0 then ZeroMax
    else
      var used := mem.total - mem.free;
      UsedPercentInRange(used, mem.max);
      Usage(MemoryUsage(Megabytes(used), Megabytes(mem.max), Quot(used * 100, mem.max)))
  }

  /** With used memory between 0 and a positive maximum, the integer
      percentage lies between 0 and 100. */
  lemma {:induction false} UsedPercentInRange(used: int, max: int)
    requires max != 0
    ensures 0 <= used <= max ==> 0 <= Quot(used * 100, max) <= 100
  {
    if 0 <= used <= max {
      var q := Quot(used * 100, max);
      QuotBounds(used * 100, max);
      assert q * max <= used * 100 <= max * 100;
      ProductLeavesOpenInterval(max, q - 100);
      assert max * (q - 100) == q * max - max * 100;
    }
  }

  /** Why one sampling cycle ends early: reading a thread name threw, or the
      percentage division did. */
  datatype MetricsError = NullThreadInfo(index: nat) | DivisionByZero

  /** The figures one cycle of `logVertxMetrics` and `logEventBusStatus` logs. */
  datatype MetricsReport = MetricsReport(
    eventLoopThreads: int,
    eventLoopCpuMillis: int,
    memory: MemoryUsage,
    localConsumers: int,
    remoteConsumers: int,
    noLocalConsumersWarning: bool)

  datatype MetricsOutcome = Reported(report: MetricsReport) | Aborted(error: MetricsError)

  /** One sampling cycle: scan the threads, then the memory arithmetic, then
      the consumer estimates. The first failure ends the cycle. The consumer
      counts are fixed at one local and zero remote, so the warning about no
      local consumers never fires. */
  method LogVertxMetrics(threads: seq<ThreadSample>, mem: MemorySample) returns (outcome: MetricsOutcome)
    ensures outcome.Aborted? && outcome.error.NullThreadInfo? <==> !AllInfoPresent(threads)
    ensures outcome.Aborted? && outcome.error.NullThreadInfo? ==> FirstNullInfo(threads, outcome.error.index)
    ensures outcome == Aborted(DivisionByZero) <==> AllInfoPresent(threads) && mem.max == 0
    ensures outcome.Reported? ==>
      && outcome.report.eventLoopThreads == EventLoopCount(threads)
      && outcome.report.eventLoopCpuMillis == EventLoopCpu(threads) / NanosPerMilli
      && MemoryFigures(mem) == Usage(outcome.report.memory)
      && outcome.report.localConsumers == 1
      && outcome.report.remoteConsumers == 0
      && !outcome.report.noLocalConsumersWarning
  {
    var scan := ScanThreads(threads);
    if scan.NullInfoAt? {
      return Aborted(NullThreadInfo(scan.index));
    }
    var memory := MemoryFigures(mem);
    if memory.ZeroMax? {
      return Aborted(DivisionByZero);
    }
    var local := LocalConsumerCount();
    outcome := Reported(MetricsReport(
      scan.count, Quot(scan.cpuNanos, NanosPerMilli), memory.usage,
      local, RemoteConsumerCount(), local == 0));
  }
}

=== FILE: metrics_properties.dfy ===
/** Properties of one runtime-metrics sample: how the event-loop count and CPU
    total depend on the listed threads. */
module MetricsProperties {
  import opened MetricsMonitor

  /** Count and CPU total add up over any split of the thread list. */
  lemma {:induction false} EventLoopConcat(ts: seq<ThreadSample>, us: seq<ThreadSample>)
    ensures EventLoopCount(ts + us) == EventLoopCount(ts) + EventLoopCount(us)
    ensures EventLoopCpu(ts + us) == EventLoopCpu(ts) + EventLoopCpu(us)
  {
    if |us| == 0 {
      assert ts + us == ts;
    } else {
      assert (ts + us)[..|ts + us| - 1] == ts + us[..|us| - 1];
      EventLoopConcat(ts, us[..|us| - 1]);
    }
  }

  /** Taking the last element off one listing and the same thread off another
      listing of the same threads leaves two listings of the same threads. */
  lemma RemoveMatching(ts: seq<ThreadSample>, us: seq<ThreadSample>, j: int)
    requires multiset(ts) == multiset(us) && |ts| > 0
    requires 0 <= j < |us| && us[j] == ts[|ts| - 1]
    ensures multiset(ts[..|ts| - 1]) == multiset(us[..j] + us[j + 1..])
  {
    var n, x, rest := |ts| - 1, ts[|ts| - 1], us[..j] + us[j + 1..];
    assert ts == ts[..n] + [x];
    assert us == us[..j] + [x] + us[j + 1..];
    assert multiset(ts[..n]) + multiset([x]) == multiset(rest) + multiset([x]);
    forall y
      ensures multiset(ts[..n])[y] == multiset(rest)[y]
    {
      assert (multiset(ts[..n]) + multiset([x]))[y] == (multiset(rest) + multiset([x]))[y];
    }
  }

  /** The order in which the bean lists thread ids does not matter: any two
      listings of the same threads give the same count and CPU total. */
  lemma {:induction false} EventLoopOrderIrrelevant(ts: seq<ThreadSample>, us: seq<ThreadSample>)
    requires multiset(ts) == multiset(us)
    ensures EventLoopCount(ts) == EventLoopCount(us)
    ensures EventLoopCpu(ts) == EventLoopCpu(us)
    decreases |ts|
  {
    if |ts| > 0 {
      var n := |ts| - 1;
      var x := ts[n];
      assert x in multiset(us);
      var j :| 0 <= j < |us| && us[j] == x;
      RemoveMatching(ts, us, j);
      EventLoopOrderIrrelevant(ts[..n], us[..j] + us[j + 1..]);
      assert us == us[..j] + [x] + us[j + 1..];
      assert ts == ts[..n] + [x];
      EventLoopConcat(us[..j] + [x], us[j + 1..]);
      EventLoopConcat(us[..j], [x]);
      EventLoopConcat(us[..j], us[j + 1..]);
      EventLoopConcat(ts[..n], [x]);
    } else {
      assert |us| == |multiset(us)| == 0;
    }
  }

  /** A thread whose name does not match, wherever it is listed, changes
      neither the count nor the CPU total. */
  lemma NonEventLoopThreadIgnored(ts: seq<ThreadSample>, t: ThreadSample, us: seq<ThreadSample>)
    requires !IsEventLoop(t)
    ensures EventLoopCount(ts + [t] + us) == EventLoopCount(ts + us)
    ensures EventLoopCpu(ts + [t] + us) == EventLoopCpu(ts + us)
  {
    EventLoopConcat(ts + [t], us);
    EventLoopConcat(ts, [t]);
    EventLoopConcat(ts, us);
    assert [t][..0] == [];
  }

  /** A matching thread whose CPU time is not positive (-1 when measurement
      is disabled or the thread has ended) is counted but adds nothing to the
      CPU total. */
  lemma NonPositiveCpuTimeIgnored(ts: seq<ThreadSample>, t: ThreadSample, us: seq<ThreadSample>)
    requires IsEventLoop(t) && t.cpuTime <= 0
    ensures EventLoopCount(ts + [t] + us) == EventLoopCount(ts + us) + 1
    ensures EventLoopCpu(ts + [t] + us) == EventLoopCpu(ts + us)
  {
    EventLoopConcat(ts + [t], us);
    EventLoopConcat(ts, [t]);
    EventLoopConcat(ts, us);
    assert [t][..0] == [];
  }

  /** The CPU total is the sum of the positive times of the matching threads:
      it is at least the time of each such thread. */
  lemma {:induction false} EventLoopCpuCoversEachThread(ts: seq<ThreadSample>, i: int)
    requires 0 <= i < |ts| && IsEventLoop(ts[i]) && ts[i].cpuTime > 0
    ensures EventLoopCpu(ts) >= ts[i].cpuTime
  {
    assert ts == ts[..i] + [ts[i]] + ts[i + 1..];
    EventLoopConcat(ts[..i] + [ts[i]], ts[i + 1..]);
    EventLoopConcat(ts[..i], [ts[i]]);
    assert [ts[i]][..0] == [];
  }

  /** The thread naming the deployment's own log line describes is counted. */
  lemma DescribedEventLoopNameMatches(cpuTime: int)
    ensures IsEventLoop(ThreadSample(Info("vertx-eventloop-thread-0"), cpuTime))
  {
    assert OccursAt("vertx-eventloop-thread-0", EventLoopPattern, 0);
  }

  /** The filter is an exact substring test: a name spelled with a dot after
      `vert`, as in `vert.x-eventloop-thread-0`, is not counted. */
  lemma DottedEventLoopNameIgnored(cpuTime: int)
    ensures !IsEventLoop(ThreadSample(Info("vert.x-eventloop-thread-0"), cpuTime))
  {
    DottedNameMismatches("vert.x-eventloop-thread-0", EventLoopPattern);
  }

  /** The alignment behind `DottedEventLoopNameIgnored`, for `s` the 25-character
      name and `pat` the 15-character pattern, so a match could start at
      offsets 0 to 10:
        - at 0, `s[4]` is the `.` where `pat[4]` is `x`;
        - at 8, `s` reads `ven...` where `pat` reads `ver...`: `s[10]` is `n`, `pat[2]` is `r`;
        - at every other offset, `s` has no `v` there (`e r t . x - e` at 1-7, `e n` at 9-10).
      The character facts are taken as preconditions and checked once at the
      call, which keeps the solver away from indexing the literal under a
      quantifier. */
  lemma DottedNameMismatches(s: string, pat: string)
    requires |s| == 25 && |pat| == 15
    requires s[4] != pat[4] && s[10] != pat[2]
    requires forall j | 1 <= j <= 10 && j != 8 :: s[j] != pat[0]
    ensures !Contains(s, pat)
  {
    forall i | 0 <= i <= |s| - |pat|
      ensures !OccursAt(s, pat, i)
    {
      if i == 0 {
        MismatchAt(s, pat, 0, 4);
      } else if i == 8 {
        MismatchAt(s, pat, 8, 2);
      } else {
        MismatchAt(s, pat, i, 0);
      }
    }
  }

  /** One differing character rules out an occurrence. */
  lemma MismatchAt(s: string, pat: string, i: int, k: int)
    requires 0 <= i && i + |pat| <= |s| && 0 <= k < |pat|
    requires s[i + k] != pat[k]
    ensures !OccursAt(s, pat, i)
  {
    assert s[i..i + |pat|][k] == s[i + k];
  }

  /** A pattern occurring anywhere in a name is found: `contains` holds for
      every name that splits around the pattern. */
  lemma ContainsInfix(pre: string, pat: string, post: string)
    ensures Contains(pre + pat + post, pat)
  {
    assert (pre + pat + post)[|pre|..|pre| + |pat|] == pat;
    assert OccursAt(pre + pat + post, pat, |pre|);
  }

  /** Conversely, a name that contains the pattern splits around it. */
  lemma ContainsSplits(s: string, pat: string)
    requires Contains(s, pat)
    ensures exists i :: 0 <= i <= |s| - |pat| && s == s[..i] + pat + s[i + |pat|..]
  {
    var i :| 0 <= i <= |s| - |pat| && OccursAt(s, pat, i);
    assert s == s[..i] + s[i..i + |pat|] + s[i + |pat|..];
  }

  /** A name shorter than the pattern never contains it, so a thread named
      `vertx-eventloo` is not counted; the empty pattern is in every name. */
  lemma ContainsNeedsRoom(s: string, pat: string)
    ensures |s| < |pat| ==> !Contains(s, pat)
    ensures Contains(s, [])
  {
    assert OccursAt(s, [], 0);
  }
}

=== FILE: queue_history.dfy ===
/** What the message-flow monitor's counters mean over a whole event history:
    the ledger invariant every event preserves, monotonicity of the three
    cumulative counters, the counters as event counts, and the report's
    behaviour on the histories the deployment produces. */
module QueueHistory {
  import opened Tally
  import opened QueueMonitor

  /** Every lifecycle event keeps the ledger consistent. */
  lemma StepPreservesConsistent(m: Monitor, e: Event)
    requires Consistent(m)
    ensures Consistent(Step(m, e))
  {
    match e.kind
    case Sent =>
      SumMerge(m.addressStats, e.address, 1);
      SumMerge(m.addressPending, e.address, 1);
    case Received =>
      SumMerge(m.addressPending, e.address, -1);
    case Failed =>
      SumMerge(m.addressPending, e.address, -1);
  }

  /** Any sequence of events keeps a consistent ledger consistent. */
  lemma {:induction false} ApplyPreservesConsistent(m: Monitor, es: seq<Event>)
    requires Consistent(m)
    ensures Consistent(Apply(m, es))
  {
    if |es| > 0 {
      ApplyPreservesConsistent(m, es[..|es| - 1]);
      StepPreservesConsistent(Apply(m, es[..|es| - 1]), es[|es| - 1]);
    }
  }

  /** From construction on, over any event history, pending is sent minus
      received minus failed and both per-address tables add up to the global
      counters. */
  lemma {:induction false} ReplayConsistent(es: seq<Event>)
    ensures Consistent(Replay(es))
  {
    var m := Fresh();
    assert Sum(m.addressStats) == 0 && Sum(m.addressPending) == 0;
    ApplyPreservesConsistent(m, es);
  }

  /** Sent, received and failed never decrease over any sequence of events. */
  lemma {:induction false} ApplyMonotone(m: Monitor, es: seq<Event>)
    ensures Apply(m, es).totalSent >= m.totalSent
    ensures Apply(m, es).totalReceived >= m.totalReceived
    ensures Apply(m, es).totalFailed >= m.totalFailed
  {
    if |es| > 0 {
      ApplyMonotone(m, es[..|es| - 1]);
    }
  }

  /** After a history, each global counter is the number of matching events. */
  lemma {:induction false} ReplayTotals(es: seq<Event>)
    ensures Replay(es).totalSent == Occurrences(es, Sent)
    ensures Replay(es).totalReceived == Occurrences(es, Received)
    ensures Replay(es).totalFailed == Occurrences(es, Failed)
    ensures Replay(es).totalPending
         == Occurrences(es, Sent) - Occurrences(es, Received) - Occurrences(es, Failed)
  {
    if |es| > 0 {
      var p, e := es[..|es| - 1], es[|es| - 1];
      ReplayTotals(p);
      assert Replay(es) == Step(Replay(p), e);
      assert Occurrences(es, Sent) == Occurrences(p, Sent) + (if e.kind == Sent then 1 else 0);
      assert Occurrences(es, Received) == Occurrences(p, Received) + (if e.kind == Received then 1 else 0);
      assert Occurrences(es, Failed) == Occurrences(p, Failed) + (if e.kind == Failed then 1 else 0);
    }
  }

  /** After a history, the send table holds, for each address, the number of
      sends to it, and has an entry exactly for the addresses sent to. */
  lemma {:induction false} ReplaySendTable(es: seq<Event>, a: string)
    ensures Get(Replay(es).addressStats, a) == OccurrencesAt(es, Sent, a)
    ensures a in Replay(es).addressStats <==> OccurrencesAt(es, Sent, a) > 0
  {
    if |es| > 0 {
      ReplaySendTable(es[..|es| - 1], a);
    }
  }

  /** After a history, the pending table holds, for each address, its sends
      minus its receives and failures. */
  lemma {:induction false} ReplayPendingTable(es: seq<Event>, a: string)
    ensures Get(Replay(es).addressPending, a)
         == OccurrencesAt(es, Sent, a) - OccurrencesAt(es, Received, a) - OccurrencesAt(es, Failed, a)
  {
    if |es| > 0 {
      ReplayPendingTable(es[..|es| - 1], a);
    }
  }

  /** After a history, the pending table has an entry exactly for the
      addresses some event named. */
  lemma {:induction false} ReplayPendingKeys(es: seq<Event>, a: string)
    ensures a in Replay(es).addressPending <==> Mentions(es, a)
  {
    if |es| > 0 {
      var p := es[..|es| - 1];
      ReplayPendingKeys(p, a);
      assert Replay(es).addressPending.Keys == Replay(p).addressPending.Keys + {es[|es| - 1].address};
      if Mentions(es, a) {
        var i :| 0 <= i < |es| && es[i].address == a;
        if i < |p| {
          assert p[i] == es[i];
        }
      }
      if Mentions(p, a) {
        var i :| 0 <= i < |p| && p[i].address == a;
        assert es[i] == p[i];
      }
    }
  }

  /** An address that was sent to is named by some event of the history. */
  lemma {:induction false} SentAddressMentioned(es: seq<Event>, a: string)
    ensures OccurrencesAt(es, Sent, a) > 0 ==> Mentions(es, a)
  {
    if |es| > 0 {
      var p := es[..|es| - 1];
      SentAddressMentioned(p, a);
      if Mentions(p, a) {
        var i :| 0 <= i < |p| && p[i].address == a;
        assert es[i] == p[i];
      }
      if OccurrencesAt(es, Sent, a) > 0 && !Mentions(p, a) {
        assert es[|es| - 1].address == a;
      }
    }
  }

  /** In every state a history reaches, an address with a send entry also has
      a pending entry, so the report's `getOrDefault(address, 0L)` never falls
      back to its default: each line shows the address's real pending entry. */
  lemma SendKeysHavePending(es: seq<Event>, a: string)
    requires a in Replay(es).addressStats
    ensures a in Replay(es).addressPending
    ensures LogQueueStatus(Replay(es)).addresses[a].pending == Replay(es).addressPending[a]
  {
    ReplaySendTable(es, a);
    SentAddressMentioned(es, a);
    ReplayPendingKeys(es, a);
  }

  /** The backlog the report and the snapshot print ignores failures: with a
      consistent ledger it is pending plus failed, not pending. */
  lemma BacklogIsPendingPlusFailed(m: Monitor)
    requires Consistent(m)
    ensures LogQueueStatus(m).backlog == m.totalPending + m.totalFailed
    ensures GetQueueStats(m).backlog == m.totalPending + m.totalFailed
  {
  }

  /** The report and the snapshot read the same counters and derive the same
      backlog, and the report lists exactly the snapshot's send-table keys. */
  lemma StatusAgreesWithStats(m: Monitor)
    ensures LogQueueStatus(m).sent == GetQueueStats(m).totalSent
    ensures LogQueueStatus(m).received == GetQueueStats(m).totalReceived
    ensures LogQueueStatus(m).pending == GetQueueStats(m).totalPending
    ensures LogQueueStatus(m).failed == GetQueueStats(m).totalFailed
    ensures LogQueueStatus(m).backlog == GetQueueStats(m).backlog
    ensures LogQueueStatus(m).addresses.Keys == GetQueueStats(m).addressStats.Keys
  {
  }

  /** An address that was never sent to gets no line in the report, however
      many receives and failures drove its pending entry below zero. */
  lemma {:induction false} UnsentAddressUnreported(es: seq<Event>, a: string)
    requires OccurrencesAt(es, Sent, a) == 0
    ensures a !in LogQueueStatus(Replay(es)).addresses
    ensures Get(Replay(es).addressPending, a)
         == -(OccurrencesAt(es, Received, a) + OccurrencesAt(es, Failed, a))
  {
    ReplaySendTable(es, a);
    ReplayPendingTable(es, a);
  }

  /** Only the send table produces report lines: with it empty, the report
      lists no address, whatever the pending table holds. */
  lemma EmptySendTableNoLines(m: Monitor)
    requires m.addressStats == map[]
    ensures LogQueueStatus(m).addresses == map[]
  {
    assert LogQueueStatus(m).addresses.Keys == {};
  }

  /** A report of zero counters, zero backlog, no address line and no warning. */
  predicate QuietReport(s: QueueStatus)
  {
    s == QueueStatus(0, 0, 0, 0, 0, map[], {})
  }

  /** A monitor left as the constructor leaves it, all counters zero and no
      send recorded, reports zero everywhere, lists no address and raises no
      warning, whatever its pending table holds. */
  lemma FreshReportIsQuiet(m: Monitor)
    requires m.totalSent == 0 && m.totalReceived == 0 && m.totalPending == 0 && m.totalFailed == 0
    requires m.addressStats == map[]
    ensures QuietReport(LogQueueStatus(m))
  {
    EmptySendTableNoLines(m);
  }

  /** The snapshot of a newly constructed monitor holds zeros and two empty
      tables. */
  lemma FreshStatsAreEmpty()
    ensures GetQueueStats(Fresh()) == QueueStats(0, 0, 0, 0, 0, map[], map[])
  {
  }
}

=== FILE: queue_monitor.dfy ===
/** The message-flow monitor of the multi-instance module: four global
    counters and two per-address tables, updated by the three lifecycle
    events, plus the periodic status report and the statistics snapshot
    derived from them. Counters are Java `long`s, modelled as unbounded
    integers; the atomic and concurrent-map types only matter under
    concurrency, and each event here is one sequential update. */
module QueueMonitor {
  import opened Tally

  /** The report warns when the backlog is strictly above this. */
  const BacklogWarnThreshold: int := 100
  /** The report warns when the pending count is strictly above this. */
  const PendingWarnThreshold: int := 50

  /** The monitor's state: `addressStats` counts sends per address,
      `addressPending` the per-address in-flight count. */
  datatype Monitor = Monitor(
    totalSent: int,
    totalReceived: int,
    totalPending: int,
    totalFailed: int,
    addressStats: map<string, int>,
    addressPending: map<string, int>)

  /** The three lifecycle notifications, each naming an event-bus address. */
  datatype Kind = Sent | Received | Failed
  datatype Event = Event(kind: Kind, address: string)

  /** The ledger the monitor is meant to keep: pending is what was sent and
      has neither been received nor failed, globally and per address, and
      the per-address send counts add up to the global one. */
  ghost predicate Consistent(m: Monitor)
  {
    && m.totalPending == m.totalSent - m.totalReceived - m.totalFailed
    && Sum(m.addressPending) == m.totalPending
    && Sum(m.addressStats) == m.totalSent
  }

  /** A freshly constructed monitor: every counter zero, both tables empty. */
  function Fresh(): Monitor
  {
    Monitor(0, 0, 0, 0, map[], map[])
  }

  /** `messageSent(a)`: one more message sent, and pending, globally and for `a`. */
  function MessageSent(m: Monitor, a: string): (r: Monitor)
    ensures r.totalSent == m.totalSent + 1 && r.totalPending == m.totalPending + 1
    ensures r.totalReceived == m.totalReceived && r.totalFailed == m.totalFailed
    ensures r.addressStats.Keys == m.addressStats.Keys + {a}
    ensures r.addressPending.Keys == m.addressPending.Keys + {a}
    ensures Get(r.addressStats, a) == Get(m.addressStats, a) + 1
    ensures Get(r.addressPending, a) == Get(m.addressPending, a) + 1
    ensures forall b :: b != a ==> Get(r.addressStats, b) == Get(m.addressStats, b)
    ensures forall b :: b != a ==> Get(r.addressPending, b) == Get(m.addressPending, b)
  {
    m.(totalSent := m.totalSent + 1,
       totalPending := m.totalPending + 1,
       addressStats := Merge(m.addressStats, a, 1),
       addressPending := Merge(m.addressPending, a, 1))
  }

  /** `messageReceived(a)`: one more message received, one fewer pending,
      globally and for `a`. There is no lower bound: an address without an entry
      gets a pending entry of -1. The send table is untouched. */
  function MessageReceived(m: Monitor, a: string): (r: Monitor)
    ensures r.totalReceived == m.totalReceived + 1 && r.totalPending == m.totalPending - 1
    ensures r.totalSent == m.totalSent && r.totalFailed == m.totalFailed
    ensures r.addressStats == m.addressStats
    ensures r.addressPending.Keys == m.addressPending.Keys + {a}
    ensures Get(r.addressPending, a) == Get(m.addressPending, a) - 1
    ensures forall b :: b != a ==> Get(r.addressPending, b) == Get(m.addressPending, b)
  {
    m.(totalReceived := m.totalReceived + 1,
       totalPending := m.totalPending - 1,
       addressPending := Merge(m.addressPending, a, -1))
  }

  /** `messageFailed(a)`: one more failure, one fewer pending, globally and
      for `a`, with the same missing lower bound as a receive. */
  function MessageFailed(m: Monitor, a: string): (r: Monitor)
    ensures r.totalFailed == m.totalFailed + 1 && r.totalPending == m.totalPending - 1
    ensures r.totalSent == m.totalSent && r.totalReceived == m.totalReceived
    ensures r.addressStats == m.addressStats
    ensures r.addressPending.Keys == m.addressPending.Keys + {a}
    ensures Get(r.addressPending, a) == Get(m.addressPending, a) - 1
    ensures forall b :: b != a ==> Get(r.addressPending, b) == Get(m.addressPending, b)
  {
    m.(totalFailed := m.totalFailed + 1,
       totalPending := m.totalPending - 1,
       addressPending := Merge(m.addressPending, a, -1))
  }

  /** Dispatch one lifecycle event. Sent, received and failed never decrease. */
  function Step(m: Monitor, e: Event): (r: Monitor)
    ensures r.totalSent >= m.totalSent
    ensures r.totalReceived >= m.totalReceived
    ensures r.totalFailed >= m.totalFailed
  {
    match e.kind
    case Sent => MessageSent(m, e.address)
    case Received => MessageReceived(m, e.address)
    case Failed => MessageFailed(m, e.address)
  }

  /** The monitor after the events `es`, in order, starting from `m`. */
  function Apply(m: Monitor, es: seq<Event>): Monitor
  {
    if |es| == 0 then m else Step(Apply(m, es[..|es| - 1]), es[|es| - 1])
  }

  /** The monitor after the event history `es`, from construction on. */
  function Replay(es: seq<Event>): Monitor
  {
    Apply(Fresh(), es)
  }

  // ---------------------------------------------------------------------
  // Reference counts over an event history

  /** How many events of kind `k` the history holds. */
  function Occurrences(es: seq<Event>, k: Kind): nat
  {
    if |es| == 0 then 0
    else Occurrences(es[..|es| - 1], k) + (if es[|es| - 1].kind == k then 1 else 0)
  }

  /** How many events of kind `k` at address `a` the history holds. */
  function OccurrencesAt(es: seq<Event>, k: Kind, a: string): nat
  {
    if |es| == 0 then 0
    else
      OccurrencesAt(es[..|es| - 1], k, a)
      + (if es[|es| - 1].kind == k && es[|es| - 1].address == a then 1 else 0)
  }

  /** Whether any event of the history names address `a`. */
  predicate Mentions(es: seq<Event>, a: string)
  {
    exists i :: 0 <= i < |es| && es[i].address == a
  }

  // ---------------------------------------------------------------------
  // Report and snapshot

  /** The two warnings `logQueueStatus` may print, with the figure it prints. */
  datatype Warning = HighBacklog(backlog: int) | HighPending(pending: int)

  /** One per-address line of the report. */
  datatype AddressLine = AddressLine(sent: int, pending: int)

  /** What `logQueueStatus` prints, minus the processing rate and the text.
      The address lines come out in the hash map's iteration order, so the
      model keeps them as an unordered map. */
  datatype QueueStatus = QueueStatus(
    sent: int,
    received: int,
    pending: int,
    failed: int,
    backlog: int,
    addresses: map<string, AddressLine>,
    warnings: set<Warning>)

  /** The warnings for a backlog and a pending figure: each fires exactly
      when its figure is strictly above its threshold, independently. */
  function Warnings(backlog: int, pending: int): (w: set<Warning>)
    ensures HighBacklog(backlog) in w <==> backlog > BacklogWarnThreshold
    ensures HighPending(pending) in w <==> pending > PendingWarnThreshold
    ensures forall x :: x in w ==> x == HighBacklog(backlog) || x == HighPending(pending)
  {
    (if backlog > BacklogWarnThreshold then {HighBacklog(backlog)} else {})
    + (if pending > PendingWarnThreshold then {HighPending(pending)} else {})
  }

  /** `logQueueStatus`: the backlog is sent minus received and ignores
      failures; only addresses in the send table get a line, and their pending
      figure defaults to 0. */
  function LogQueueStatus(m: Monitor): (s: QueueStatus)
    ensures s.sent == m.totalSent && s.received == m.totalReceived
    ensures s.pending == m.totalPending && s.failed == m.totalFailed
    ensures s.backlog == m.totalSent - m.totalReceived
    ensures s.addresses.Keys == m.addressStats.Keys
    ensures forall a :: a in s.addresses ==>
      s.addresses[a] == AddressLine(m.addressStats[a], Get(m.addressPending, a))
    ensures s.warnings == Warnings(m.totalSent - m.totalReceived, m.totalPending)
  {
    var backlog := m.totalSent - m.totalReceived;
    QueueStatus(
      m.totalSent, m.totalReceived, m.totalPending, m.totalFailed, backlog,
      map a | a in m.addressStats :: AddressLine(m.addressStats[a], Get(m.addressPending, a)),
      Warnings(backlog, m.totalPending))
  }

  /** The map `getQueueStats` returns, as a record: the four counters, the
      backlog, and copies of both per-address tables. */
  datatype QueueStats = QueueStats(
    totalSent: int,
    totalReceived: int,
    totalPending: int,
    totalFailed: int,
    backlog: int,
    addressStats: map<string, int>,
    addressPending: map<string, int>)

  /** `getQueueStats`: a snapshot whose backlog also ignores failures and
      whose tables are exact copies. */
  function GetQueueStats(m: Monitor): (st: QueueStats)
    ensures st.totalSent == m.totalSent && st.totalReceived == m.totalReceived
    ensures st.totalPending == m.totalPending && st.totalFailed == m.totalFailed
    ensures st.backlog == st.totalSent - st.totalReceived
    ensures st.addressStats == m.addressStats && st.addressPending == m.addressPending
  {
    QueueStats(
      m.totalSent, m.totalReceived, m.totalPending, m.totalFailed,
      m.totalSent - m.totalReceived,
      m.addressStats, m.addressPending)
  }
}

=== FILE: queue_scenarios.dfy ===
/** Concrete histories of the message-flow monitor: the warning thresholds at
    their boundary, a burst of sends, and the histories of the multi-instance
    deployment. There the application's monitor only sees sends, while each
    consumer instance owns a monitor that never sees a send: it sees receives
    and, when its handler is interrupted, a failure for the message it just
    received. */
module QueueScenarios {
  import opened Tally
  import opened QueueMonitor
  import opened QueueHistory

  /** `n` copies of the same event. */
  function Repeat(e: Event, n: nat): (es: seq<Event>)
    ensures |es| == n && forall i :: 0 <= i < n ==> es[i] == e
  {
    seq(n, _ => e)
  }

  /** A run of one event counts `n` times for its own kind and address and
      not at all for any other. */
  lemma {:induction false} OccurrencesRepeat(e: Event, n: nat, k: Kind, a: string)
    ensures Occurrences(Repeat(e, n), k) == (if e.kind == k then n else 0)
    ensures OccurrencesAt(Repeat(e, n), k, a) == (if e.kind == k && e.address == a then n else 0)
  {
    if n > 0 {
      assert Repeat(e, n)[..n - 1] == Repeat(e, n - 1);
      OccurrencesRepeat(e, n - 1, k, a);
    }
  }

  /** Event counts add up over concatenated histories. */
  lemma {:induction false} OccurrencesAppend(es: seq<Event>, fs: seq<Event>, k: Kind, a: string)
    ensures Occurrences(es + fs, k) == Occurrences(es, k) + Occurrences(fs, k)
    ensures OccurrencesAt(es + fs, k, a) == OccurrencesAt(es, k, a) + OccurrencesAt(fs, k, a)
  {
    if |fs| > 0 {
      assert (es + fs)[..|es + fs| - 1] == es + fs[..|fs| - 1];
      OccurrencesAppend(es, fs[..|fs| - 1], k, a);
    } else {
      assert es + fs == es;
    }
  }

  /** `n` sends to one address and nothing else: the backlog is `n`. */
  lemma SendsOnly(n: nat, a: string)
    ensures LogQueueStatus(Replay(Repeat(Event(Sent, a), n))).backlog == n
    ensures LogQueueStatus(Replay(Repeat(Event(Sent, a), n))).pending == n
  {
    var es := Repeat(Event(Sent, a), n);
    ReplayTotals(es);
    OccurrencesRepeat(Event(Sent, a), n, Sent, a);
    OccurrencesRepeat(Event(Sent, a), n, Received, a);
    OccurrencesRepeat(Event(Sent, a), n, Failed, a);
  }

  /** The backlog warning is strict: after 100 sends only the pending warning
      fires, after 101 the backlog warning joins it. */
  lemma BacklogWarningBoundary(a: string)
    ensures LogQueueStatus(Replay(Repeat(Event(Sent, a), 100))).warnings == {HighPending(100)}
    ensures LogQueueStatus(Replay(Repeat(Event(Sent, a), 101))).warnings
         == {HighBacklog(101), HighPending(101)}
  {
    SendsOnly(100, a);
    SendsOnly(101, a);
  }

  /** The pending warning is strict: 50 messages pending raise no warning at
      all, 51 raise the pending warning alone. */
  lemma PendingWarningBoundary(a: string)
    ensures LogQueueStatus(Replay(Repeat(Event(Sent, a), 50))).warnings == {}
    ensures LogQueueStatus(Replay(Repeat(Event(Sent, a), 51))).warnings == {HighPending(51)}
  {
    SendsOnly(50, a);
    SendsOnly(51, a);
  }

  /** 120 sends to "x" followed by 10 receives: backlog and pending are both
      110, so both warnings fire together, and "x" is reported with 120 sent
      and 110 pending. */
  lemma BurstRaisesBothWarnings()
    ensures var s := LogQueueStatus(Replay(Repeat(Event(Sent, "x"), 120) + Repeat(Event(Received, "x"), 10)));
      && s.backlog == 110 && s.pending == 110
      && s.warnings == {HighBacklog(110), HighPending(110)}
      && s.addresses == map["x" := AddressLine(120, 110)]
  {
    var sends, receives := Repeat(Event(Sent, "x"), 120), Repeat(Event(Received, "x"), 10);
    var es := sends + receives;
    ReplayTotals(es);
    forall k: Kind, a: string
      ensures Occurrences(es, k) == Occurrences(sends, k) + Occurrences(receives, k)
      ensures OccurrencesAt(es, k, a) == OccurrencesAt(sends, k, a) + OccurrencesAt(receives, k, a)
      ensures Occurrences(sends, k) == (if k == Sent then 120 else 0)
      ensures Occurrences(receives, k) == (if k == Received then 10 else 0)
      ensures OccurrencesAt(sends, k, a) == (if k == Sent && a == "x" then 120 else 0)
      ensures OccurrencesAt(receives, k, a) == (if k == Received && a == "x" then 10 else 0)
    {
      OccurrencesAppend(sends, receives, k, a);
      OccurrencesRepeat(Event(Sent, "x"), 120, k, a);
      OccurrencesRepeat(Event(Received, "x"), 10, k, a);
    }
    var m := Replay(es);
    forall a
      ensures Get(m.addressStats, a) == OccurrencesAt(es, Sent, a)
      ensures a in m.addressStats <==> a == "x"
      ensures Get(m.addressPending, a)
           == OccurrencesAt(es, Sent, a) - OccurrencesAt(es, Received, a) - OccurrencesAt(es, Failed, a)
    {
      ReplaySendTable(es, a);
      ReplayPendingTable(es, a);
    }
    assert m.addressStats.Keys == {"x"};
  }

  /** A consumer monitor over a history of receives only, as the monitor of
      any instance other than the one whose handler can be interrupted sees:
      after `n` receives at `a`, pending and backlog are both `-n`. The
      general consumer history, with failures, is `ConsumerMonitor`. */
  lemma ReceiveOnlyMonitor(n: nat, a: string)
    ensures Replay(Repeat(Event(Received, a), n)).totalPending == -(n as int)
    ensures Get(Replay(Repeat(Event(Received, a), n)).addressPending, a) == -(n as int)
    ensures LogQueueStatus(Replay(Repeat(Event(Received, a), n))).backlog == -(n as int)
  {
    var e := Event(Received, a);
    var es := Repeat(e, n);
    ReplayTotals(es);
    OccurrencesRepeat(e, n, Sent, a);
    OccurrencesRepeat(e, n, Received, a);
    OccurrencesRepeat(e, n, Failed, a);
    ReplayPendingTable(es, a);
  }

  /** Nothing is ever sent through a consumer instance's own monitor, so its
      report lists no address at all. */
  lemma ReceiveOnlyMonitorListsNothing(n: nat, a: string)
    ensures LogQueueStatus(Replay(Repeat(Event(Received, a), n))).addresses == map[]
  {
    var e := Event(Received, a);
    var es := Repeat(e, n);
    var m := Replay(es);
    forall b
      ensures b !in m.addressStats
    {
      ReplaySendTable(es, b);
      OccurrencesRepeat(e, n, Sent, b);
    }
    assert m.addressStats.Keys == {};
    assert LogQueueStatus(m).addresses.Keys == {};
  }

  /** Were one monitor to see a message's whole life, a receive followed by a
      failure would still count it twice: appended to any history, the send,
      receive and failure of one message leave pending, globally and for its
      address, one lower than before it was sent, although the ledger stays
      consistent. */
  lemma InterruptedHandlerDoubleCounts(es: seq<Event>, a: string)
    ensures var before := Replay(es);
      var after := Replay(es + [Event(Sent, a), Event(Received, a), Event(Failed, a)]);
      && after.totalPending == before.totalPending - 1
      && Get(after.addressPending, a) == Get(before.addressPending, a) - 1
      && Consistent(after)
  {
    var e1, e2, e3 := Event(Sent, a), Event(Received, a), Event(Failed, a);
    var f1 := es + [e1];
    var f2 := f1 + [e2];
    var f3 := f2 + [e3];
    assert f1[..|f1| - 1] == es;
    assert f2[..|f2| - 1] == f1;
    assert f3[..|f3| - 1] == f2;
    assert f3 == es + [e1, e2, e3];
    assert Replay(f1) == Step(Replay(es), e1);
    assert Replay(f2) == Step(Replay(f1), e2);
    assert Replay(f3) == Step(Replay(f2), e3);
    ReplayConsistent(f3);
  }

  /** On a fresh shared monitor, that one message drives pending to -1. */
  lemma InterruptedHandlerGoesNegative(a: string)
    ensures Replay([Event(Sent, a), Event(Received, a), Event(Failed, a)]).totalPending == -1
    ensures Get(Replay([Event(Sent, a), Event(Received, a), Event(Failed, a)]).addressPending, a) == -1
  {
    var es: seq<Event> := [];
    assert es + [Event(Sent, a), Event(Received, a), Event(Failed, a)]
        == [Event(Sent, a), Event(Received, a), Event(Failed, a)];
    InterruptedHandlerDoubleCounts(es, a);
  }

  /** A history without sends counts none, and leaves the send table empty. */
  lemma {:induction false} NoSendsCounted(es: seq<Event>)
    requires forall i :: 0 <= i < |es| ==> es[i].kind != Sent
    ensures Occurrences(es, Sent) == 0
    ensures Replay(es).addressStats == map[]
  {
    if |es| > 0 {
      NoSendsCounted(es[..|es| - 1]);
    }
  }

  /** Any history a consumer instance's monitor can see, receives and
      failures but never a send: pending is minus their number, the backlog
      minus the receives, and the send table, the only source of report
      lines, stays empty. */
  lemma ConsumerMonitor(es: seq<Event>)
    requires forall i :: 0 <= i < |es| ==> es[i].kind != Sent
    ensures Replay(es).totalPending == -(Occurrences(es, Received) + Occurrences(es, Failed))
    ensures LogQueueStatus(Replay(es)).backlog == -(Occurrences(es, Received) as int)
    ensures Replay(es).addressStats == map[]
  {
    ReplayTotals(es);
    NoSendsCounted(es);
  }

  /** A consumer instance whose handler is interrupted reports a receive and
      then a failure for the same message to its own monitor: appended to any
      history, pending falls by two, globally and for the address, the backlog
      by one, and the send table does not change. */
  lemma VerticleInterruptedMessage(es: seq<Event>, a: string)
    ensures var before := Replay(es);
      var after := Replay(es + [Event(Received, a), Event(Failed, a)]);
      && after.totalPending == before.totalPending - 2
      && Get(after.addressPending, a) == Get(before.addressPending, a) - 2
      && LogQueueStatus(after).backlog == LogQueueStatus(before).backlog - 1
      && after.addressStats == before.addressStats
  {
    var e1, e2 := Event(Received, a), Event(Failed, a);
    var f1 := es + [e1];
    var f2 := f1 + [e2];
    assert f1[..|f1| - 1] == es;
    assert f2[..|f2| - 1] == f1;
    assert f2 == es + [e1, e2];
    assert Replay(f1) == Step(Replay(es), e1);
    assert Replay(f2) == Step(Replay(f1), e2);
  }

  /** On the consumer's freshly built monitor, one interrupted message leaves
      pending at -2, globally and for the address, and nothing to report. */
  lemma VerticleInterruptedFromFresh(a: string)
    ensures Replay([Event(Received, a), Event(Failed, a)]).totalPending == -2
    ensures Get(Replay([Event(Received, a), Event(Failed, a)]).addressPending, a) == -2
    ensures LogQueueStatus(Replay([Event(Received, a), Event(Failed, a)])).addresses == map[]
  {
    var h := [Event(Received, a), Event(Failed, a)];
    var m1 := MessageReceived(Fresh(), a);
    var m2 := MessageFailed(m1, a);
    var h1 := h[..1];
    assert h1[..0] == [] && h1[0] == Event(Received, a);
    assert Replay(h1) == Step(Replay(h1[..0]), h1[0]) == m1;
    assert h[..1] == h1;
    assert Replay(h) == Step(Replay(h1), h[1]) == m2;
    EmptySendTableNoLines(m2);
  }
}

=== FILE: tally.dfy ===
/** Counting maps from a key to a running total: the operations the monitors
    perform on their per-address `Map<String, Long>` tables, and the sum of a
    table's values, which the global counters must agree with. */
module Tally {

  /** The value stored for `k`, or 0 when there is none (`getOrDefault(k, 0L)`). */
  function Get(m: map<string, int>, k: string): int
  {
    if k in m then m[k] else 0
  }

  /** `m.merge(k, d, Long::sum)`: an absent key is stored with `d`, a present one
      with its old value plus `d`. `Long::sum` never yields null, so a merge
      never removes the key. */
  function Merge(m: map<string, int>, k: string, d: int): (r: map<string, int>)
    ensures r.Keys == m.Keys + {k}
    ensures Get(r, k) == Get(m, k) + d
    ensures forall j :: j != k ==> Get(r, j) == Get(m, j)
  {
    if k in m then m[k := m[k] + d] else m[k := d]
  }

  /** The sum of the values `m` holds for the keys in `ks`, taken in an
      arbitrary key order. */
  ghost function SumOver(m: map<string, int>, ks: set<string>): int
    requires ks <= m.Keys
    decreases ks
  {
    if ks == {} then 0
    else
      var k :| k in ks;
      m[k] + SumOver(m, ks - {k})
  }

  /** The sum of all values of `m`. */
  ghost function Sum(m: map<string, int>): int
  {
    SumOver(m, m.Keys)
  }

  /** The sum does not depend on the key the definition happens to pick first:
      any key can be split off. */
  lemma {:induction false} SumOverRemove(m: map<string, int>, ks: set<string>, k: string)
    requires ks <= m.Keys && k in ks
    ensures SumOver(m, ks) == m[k] + SumOver(m, ks - {k})
    decreases ks
  {
    var j :| j in ks && SumOver(m, ks) == m[j] + SumOver(m, ks - {j});
    if j != k {
      SumOverRemove(m, ks - {j}, k);
      SumOverRemove(m, ks - {k}, j);
      assert ks - {j} - {k} == ks - {k} - {j};
    }
  }

  /** Two tables that agree on `ks` have the same sum over `ks`. */
  lemma {:induction false} SumOverAgree(m: map<string, int>, n: map<string, int>, ks: set<string>)
    requires ks <= m.Keys && ks <= n.Keys
    requires forall k :: k in ks ==> m[k] == n[k]
    ensures SumOver(m, ks) == SumOver(n, ks)
    decreases ks
  {
    if ks != {} {
      var k :| k in ks;
      SumOverRemove(m, ks, k);
      SumOverRemove(n, ks, k);
      SumOverAgree(m, n, ks - {k});
    }
  }

  /** Merging `d` into a table adds exactly `d` to the sum of its values,
      whether or not the key was present. */
  lemma SumMerge(m: map<string, int>, k: string, d: int)
    ensures Sum(Merge(m, k, d)) == Sum(m) + d
  {
    var r := Merge(m, k, d);
    var rest := m.Keys - {k};
    assert r.Keys - {k} == rest;
    SumOverRemove(r, r.Keys, k);
    SumOverAgree(r, m, rest);
    if k in m {
      SumOverRemove(m, m.Keys, k);
    } else {
      assert m.Keys == rest;
    }
  }
}
